=== FILE: README.md ===
# qrand: a verified model of the byte-acquisition pipeline

`qrand` hands its callers `size` random bytes taken from the ANU quantum
random number service. When that service cannot be used, it falls back to Go's
`crypto/rand` and tags the result with a `PseudoRandomError`. This project
models the pipeline in Dafny and proves what it does:

- `Get(size)` fetches fixed-shape batches of ILength hex items from the
  service, each fetch wrapped in `retry`. It appends the decoded items to a
  buffer and advances a counter `i` by ISize per item. Afterwards it truncates
  the buffer to `size`, or falls back to the local generator.
- `retry` calls a callback until the callback succeeds or the attempts run
  out. It sleeps between calls.
- `Reader.Read` copies `Get`'s bytes into a caller's buffer.

The outside world is replaced by oracles (`QrandTypes.Env`):

- a finite sequence of `Round`s, one per outer-loop iteration. In each round,
  `get(k)` is the outcome of the k-th `http.Get` that `retry` makes, and
  `body` is what reading, unmarshalling and hex-decoding the answered response
  gives;
- a `Generator` for `crypto/rand.Read`: the bytes it writes over the front of
  the buffer, and the error it returns.

What remains is sequential control logic. `Get`, `Retry` and `Reader.Read`
are imperative methods with loops. Each is proved against a specification:
`Acquisition.GetSpec` for `Get`, built from `Gather` (the outer loop), the
packet functions (the inner loop) and `Conclude` (the decision taken after
the loop). The lemmas in `AcquisitionProperties` state what `Get` promises.

Files:
- `qrand_types.dfy`: bytes, errors, the configuration and the oracle types.
- `retry.dfy`: `retry`.
- `acquisition.dfy`: the specification of `Get`.
- `qrand.dfy`: `Get`, its outer loop `Accumulate` with one iteration `Fetch`, its inner loop `Unpack`, and `Reader.Read`.
- `acquisition_properties.dfy`: the properties of `Get`.

## Behaviour of the code as written

The model follows the code. Four of its behaviours are worth knowing:

- **A hex-decode failure does not end the loop.** Its comments say a
  decode failure should fall back to pseudo-random (qrand.go:117) and that
  an error from the inner loop is propagated (qrand.go:123-126). But the
  inner loop declares `err` afresh with `:=` (qrand.go:114). The check after
  the inner loop therefore reads the outer `err`, which is always nil at
  that point. A bad item ends only the rest of its packet: the items before
  it stay in the buffer, and the outer loop fetches again
  (`DecodeFailureFetchesAgain`).
- **The fallback refills the whole buffer.** When the loop leaves fewer than
  `size` bytes, `out[0:size]` followed by `rand.Read(out)`
  (qrand.go:141-143) writes the generator's bytes over the bytes already
  collected. On a complete read none of them survives, and the whole
  result is pseudo-random (`FallbackDiscardsCollected`).
- **The loop counts items, not bytes.** The counter `i` grows by ISize per
  decoded item, whatever that item's length (qrand.go:121). The loop exits
  on `i`, but the return decision looks at `len(out)`. Items that decode
  short can therefore end the loop with too few bytes, and `Get` falls back
  although no step failed (`GatherCounts`, `EmptyItemsForceFallback`).
- **A short generator read is reported but not treated as a failure.** If
  `rand.Read` writes fewer than `size` bytes and returns no error, `Get`
  logs it and still returns the buffer tagged PseudoRandom
  (qrand.go:144-151). The bytes it did not reach keep their earlier
  values: collected bytes, then the zeroed spare capacity (`RandRead`,
  `Conclude`).

## Model

| member | source | states |
|---|---|---|
| RetryPolicy.Tries | qrand.go:156-163 | retry always makes at least one call: its allowance is `attempts` when `attempts >= 1` and 1 otherwise |
| RetryPolicy.Retry | qrand.go:155-171 | calls the callback at least once and at most `max(attempts,1)` times. It returns nil exactly when the last call succeeded, and every earlier call failed. It returns nil exactly when some allowed call succeeds. On failure it made all `max(attempts,1)` calls and returns an error carrying `attempts` and the last error. It sleeps once between consecutive calls (`calls - 1` sleeps) |
| Acquisition.PacketBytesIsConcat | qrand.go:112-120 | what the inner loop appends for one packet (`PacketBytes`) is exactly the in-order concatenation of the values of the items before the first one that fails to decode |
| Acquisition.PacketCount | qrand.go:112-122 | the inner loop appends exactly the leading items that decode: all items before the count decode, and the item at the count (if any) is the first that fails |
| Acquisition.AdvanceIsProduct | qrand.go:121 | `n` appended items move the counter by exactly ISize times `n` |
| Acquisition.PacketStep | qrand.go:114-121 | an item that decodes contributes its bytes and one count, ahead of the items after it |
| Acquisition.FitsMeans | qrand.go:99-117 | a `data` list is admitted (`Fits`) exactly when the inner loop never indexes past its end: reading up to ILength entries and stopping at the first that fails to decode stays inside the list. Equivalently, the list holds at least ILength entries or an entry fails to decode before its end |
| Acquisition.Verdict | qrand.go:80-110 | a round that does not deliver a packet ends the loop with a failure. The failure is GetFailed exactly when every GET attempt failed. Otherwise it is BodyFailed, JsonFailed or NotSuccess exactly when the body is unreadable, not JSON, or reports no success |
| Acquisition.Gather | qrand.go:78-127 | the outer loop over the rounds, starting from a given buffer and counter: it consumes rounds from the given position on, and never more rounds than there are. Its properties are the `Gather…` lemmas below |
| Acquisition.Zeros | qrand.go:64 | the spare capacity that `out[0:size]` exposes holds `n` zero bytes |
| Acquisition.RandRead | qrand.go:141-143 | `rand.Read` leaves the buffer's length unchanged. Each byte it reaches is the generator's, and every other byte keeps its old value |
| Acquisition.Conclude | qrand.go:129-151 | a returned buffer is exactly `size` long. A buffer of at least `size` bytes gives its first `size` bytes and a nil error. A shorter buffer gives nil plus the generator's error when the generator fails. Otherwise it gives `size` bytes tagged PseudoRandom: the generator's bytes at the front, then the collected bytes it did not reach, then zeros. So it gives the generator's first `size` bytes when the generator supplies that many. The result is nil only in the failure case |
| Acquisition.GetSpec | qrand.go:58-151 | `size < 1` gives nil and InvalidSize; for `size >= 1` every returned buffer has exactly `size` bytes |
| Qrand.Unpack | qrand.go:112-122 | for any list the inner loop can read without a panic, it appends the decoded items of the first ILength entries (or of all entries, for a shorter list) in order, up to the first one that fails to decode. It advances the counter by ISize for each appended item |
| Qrand.Fetch | qrand.go:80-122 | one iteration of the outer loop: it stops exactly when the round does not deliver a packet, leaving the buffer and the counter unchanged. Otherwise it appends the packet's decoded items and advances the counter by ISize for each one |
| Qrand.Accumulate | qrand.go:78-127 | the outer loop leaves exactly the buffer `Acquisition.Gather` describes and plays exactly the rounds it consumes |
| Qrand.Get | qrand.go:58-152 | for every environment in which each round that delivers a packet (its GET answered, its body a successful JSON packet) delivers one the inner loop reads without a panic, returns `GetSpec`'s result. For `size < 1` it makes no fetch and no fallback. Otherwise it plays exactly the rounds `Gather` consumes, and calls the generator exactly when the loop left fewer than `size` bytes |
| Qrand.Reader.Read | qrand.go:40-55 | an empty `p` gives `(0, nil)`, makes no fetch and leaves `p` unchanged. Otherwise it plays the rounds `Get(len(p))` plays and returns its error. When `Get` returns bytes, `p` becomes them and `n == len(p)`; when `Get` returns nil, `n == 0` and `p` is unchanged. So `n` is 0 or `len(p)` |
| AcquisitionProperties.GatherEnds | qrand.go:78-127 | the outer loop ends with `Enough` exactly when its counter reached `size`. It runs out of rounds only after consuming all of them, and a failure ends it only after consuming the failing round. The buffer only grows: the starting buffer is a prefix of the final one |
| AcquisitionProperties.GatherCollects | qrand.go:112-127 | the buffer the loop leaves is the starting buffer followed by the in-order concatenation of the decoded items of the rounds consumed |
| AcquisitionProperties.AdvanceAdds | qrand.go:121 | the counter's advance over two runs of items is the sum of the two advances |
| AcquisitionProperties.GatherCounts | qrand.go:121 | the counter the loop leaves is the start value advanced by ISize for each item appended, whatever the items' byte lengths |
| AcquisitionProperties.GatherStopsAtFirstFailure | qrand.go:80-110 | every round before the last consumed one delivered a packet. The loop ends in a failure exactly when the last consumed round failed its fetch, body read, JSON decode or success check, and that check is the reason recorded |
| AcquisitionProperties.DecodeFailureFetchesAgain | qrand.go:112-126 | when a packet holds an item that fails to decode and the counter is still below `size`, the items before it stay in the buffer and the loop fetches another round |
| AcquisitionProperties.FullPacket | qrand.go:112-121 | when every item decodes to at least `w` bytes, all of them are appended, adding at least `len * w` bytes |
| AcquisitionProperties.HealthyGather | qrand.go:78-127 | healthy rounds, enough of them for `size`, carry both the counter and the buffer to `size` |
| AcquisitionProperties.EnoughBytesGivesStreamPrefix | qrand.go:129-135 | when the loop collects at least `size` bytes, `Get` returns the first `size` bytes of the in-order concatenation of the consumed rounds' items, with a nil error |
| AcquisitionProperties.HealthyServerGivesTrueRandom | qrand.go:58-135 | a service that answers with well-formed packets for as many rounds as needed yields `size` true-random bytes and no error |
| AcquisitionProperties.FallbackDiscardsCollected | qrand.go:139-151 | when the loop leaves fewer than `size` bytes, a generator error gives nil plus that error. When the generator supplies at least `size` bytes without an error, the result is exactly its first `size` bytes tagged PseudoRandom, and no collected byte survives. `crypto/rand.Read` returns a full read exactly when it returns no error, so with the real generator these are the only two cases. A short read without an error, which the oracle admits, keeps collected bytes (`Conclude`) |
| AcquisitionProperties.OutcomeKinds | qrand.go:129-151 | for `size >= 1` the error is nil exactly when the loop collected `size` bytes. Otherwise the result is a buffer tagged PseudoRandom, or nil and the generator's error |
| AcquisitionProperties.UnreachableServerFallsBack | qrand.go:80-88 | a first round whose GET fails on every attempt ends the loop after that one round with nothing collected. The whole result then comes from the generator, tagged PseudoRandom |
| AcquisitionProperties.EmptyItems | qrand.go:114-121 | items that decode to nothing add no bytes, yet each one is counted |
| AcquisitionProperties.EmptyItemsForceFallback | qrand.go:78-141 | with the defaults (ILength 10, ISize 2), one answered packet of ten empty strings ends the loop with counter 20 and an empty buffer. For any `size` up to 20, `Get` then falls back although no step failed |

## Left out

- The HTTP GET, the reading of the response body, and the endpoint URL built from ILength, the item type and ISize (qrand.go:66, 82, 90-91): these are network I/O. Each round's outcomes are oracle values instead.
- `json.Unmarshal` and `hex.DecodeString` (qrand.go:101, 114): each packet's `data` list is given as it is after unmarshalling, each entry already decoded to an optional byte sequence. A response without a `data` field leaves the ILength empty strings of qrand.go:99, which the oracle gives as ILength empty byte sequences. The `type`, `length` and `size` fields of the response are not read by the code and are not modelled.
- A `data` list shorter than ILength whose entries all decode makes the Go code index past its end and panic (qrand.go:114). `Get`, `Accumulate` and `Reader.Read` admit only environments in which no round that delivers a packet delivers such a list (`Acquisition.Shaped`, characterised by `FitsMeans`). Shorter lists that hold an undecodable entry are modelled. `Shaped` also constrains delivering rounds after the one that ends the loop, which Go never reaches; the result does not depend on those rounds, so no run of the Go code is lost.
- `crypto/rand.Read` (qrand.go:143) is an oracle: the bytes it writes and the error it returns.
- The model's round sequence is finite. When it runs out, the loop ends as after a failed GET, without calling `Retry`. The Go loop runs forever whenever the service keeps answering while the counter never reaches `size`, and that is not modelled. This happens when every packet's first item fails to decode, when ILength is 0 (qrand.go:112), or when ISize is 0 or negative (qrand.go:121), unless `i` wraps around (next item).
- `SleepTime` and `time.Sleep` (qrand.go:27, 166): `Retry` counts the sleeps and does not model their duration.
- Log lines (`fmt.Println`), the text of `PseudoRandomError.Error()` (qrand.go:36-38), the error text of `errors.New` (qrand.go:61) and of `fmt.Errorf` (qrand.go:170) are left out. The errors are tags; `Retried` keeps the attempt count and the last error.
- ILength, ISize and Attempts are fixed parameters of one call (`Config`), read without concurrent change. ILength is a natural number here: in Go a negative ILength makes `make([]string, ILength)` panic (qrand.go:99) on the first round whose body is read, and the model's `iLength: nat` rules that case out.
- The counter `i` (qrand.go:78, 121) and `size` are unbounded integers in the model, where Go's `int` is 64 bits wide. Wrap-around of `i` for extreme values of ISize is not modelled. With ILength 10 and ISize 2^62, for example, Go's `i` wraps to a negative value after one full packet and the loop fetches again, where the model ends the loop. Likewise a negative ISize of magnitude near 2^63 can wrap `i` past `size` and end the Go loop. The panic of `make([]byte, 0, size)` (qrand.go:64) for a `size` beyond the allocation limit is not modelled either.
- RetryPolicy.Retry, RetryPolicy.Tries: `attempts - 1` in the break test (qrand.go:162) is an unbounded integer in the model, where Go computes it on a 64-bit `int`. The wrap-around for `Attempts = math.MinInt64` is not modelled: there `attempts - 1` wraps to 2^63-1, and with a callback that always fails Go makes up to 2^63 calls, where the model's `Tries` allows one.
- Slice aliasing is not modelled: `out[:size]` shares its backing array with the longer buffer in Go. Each call builds a fresh buffer, so no caller can observe the sharing.

=== FILE: acquisition.dfy ===
/**
 * The meaning of one `Get` call, as functions over the oracles: what the
 * inner loop appends for one packet, where the outer loop stops, and the
 * truncate-or-fall-back decision taken after it.
 */
module Acquisition {
  import opened QrandTypes
  import opened RetryPolicy

  /** Number of leading items that decode: the inner loop appends exactly
      these and leaves at the first item that fails to decode. */
  function PacketCount(items: seq<Option<seq<Byte>>>): (n: nat)
    ensures n <= |items|
    ensures forall k :: 0 <= k < n ==> items[k].Some?
    ensures n < |items| ==> items[n].None?
  {
    if items == [] || items[0].None? then 0 else 1 + PacketCount(items[1..])
  }

  /** The values of the leading items that decode, in order. */
  function Decoded(items: seq<Option<seq<Byte>>>): (d: seq<seq<Byte>>)
    ensures |d| == PacketCount(items)
    ensures forall k :: 0 <= k < |d| ==> items[k] == Some(d[k])
  {
    seq(PacketCount(items), k requires 0 <= k < PacketCount(items) => items[k].value)
  }

  /** The in-order concatenation of a list of byte strings. */
  function Concat(parts: seq<seq<Byte>>): (r: seq<Byte>)
  {
    if parts == [] then [] else parts[0] + Concat(parts[1..])
  }

  /** The bytes the inner loop appends for one packet: the decoded items, in
      order, up to the first one that fails to decode. Nothing is appended
      when the first item fails. */
  function PacketBytes(items: seq<Option<seq<Byte>>>): (r: seq<Byte>)
  {
    if items == [] || items[0].None? then [] else items[0].value + PacketBytes(items[1..])
  }

  /** What the inner loop appends is exactly the concatenation of the values
      of the items before the first one that fails to decode. */
  lemma {:induction false} PacketBytesIsConcat(items: seq<Option<seq<Byte>>>)
    ensures PacketBytes(items) == Concat(Decoded(items))
  {
    if items != [] && items[0].Some? {
      PacketBytesIsConcat(items[1..]);
      assert Decoded(items)[1..] == Decoded(items[1..]);
    }
  }

  /** One step of the inner loop: an item that decodes contributes its bytes
      and one to the count, ahead of the items after it. */
  lemma PacketStep(items: seq<Option<seq<Byte>>>, j: nat)
    requires j < |items| && items[j].Some?
    ensures PacketBytes(items[j..]) == items[j].value + PacketBytes(items[j + 1..])
    ensures PacketCount(items[j..]) == 1 + PacketCount(items[j + 1..])
  {
    assert items[j..][0] == items[j] && items[j..][1..] == items[j + 1..];
  }

  /** How far the counter moves for `n` appended items: ISize for each one. */
  function Advance(step: int, n: nat): (r: int)
  {
    if n == 0 then 0 else Advance(step, n - 1) + step
  }

  /** The counter moves by ISize times the number of items. */
  lemma {:induction false} AdvanceIsProduct(step: int, n: nat)
    ensures Advance(step, n) == step * n
  {
    if n > 0 {
      AdvanceIsProduct(step, n - 1);
      assert step * n == step * (n - 1) + step;
    }
  }

  /** The entries of a `data` list the inner loop can look at: the first
      ILength of them, or all of them when the list is shorter. */
  function Window(cfg: Config, data: seq<Option<seq<Byte>>>): (r: seq<Option<seq<Byte>>>)
  {
    if |data| >= cfg.iLength then data[..cfg.iLength] else data
  }

  /** The inner loop can read a `data` list without a panic: the list holds
      at least `n` entries, or one of its entries fails to decode, so the
      loop stops before running off its end. */
  predicate Fits(n: nat, data: seq<Option<seq<Byte>>>)
  {
    |data| >= n || exists j :: 0 <= j < |data| && data[j].None?
  }

  /** Reading at most `n` entries of `data` in order, stopping at the first
      that fails to decode, never indexes past the end of the list. */
  predicate StaysInList(n: nat, data: seq<Option<seq<Byte>>>)
  {
    n == 0 || (data != [] && (data[0].None? || StaysInList(n - 1, data[1..])))
  }

  /** `Fits` is exactly the condition under which the inner loop stays in
      the list: it panics only on a list shorter than ILength whose entries
      all decode. Within a fitting list the loop stops at ILength or at an
      entry before the end of the list. */
  lemma {:induction false} FitsMeans(n: nat, data: seq<Option<seq<Byte>>>)
    ensures Fits(n, data) <==> StaysInList(n, data)
    ensures Fits(n, data) <==> |data| >= n || PacketCount(data) < |data|
  {
    if n > 0 && data != [] && data[0].Some? {
      FitsMeans(n - 1, data[1..]);
      if Fits(n - 1, data[1..]) && |data[1..]| < n - 1 {
        var j :| 0 <= j < |data[1..]| && data[1..][j].None?;
        assert data[j + 1].None?;
      }
      if Fits(n, data) && |data| < n {
        var j :| 0 <= j < |data| && data[j].None?;
        assert j > 0 && data[1..][j - 1].None?;
      }
    }
    if |data| < n && PacketCount(data) < |data| {
      assert data[PacketCount(data)].None?;
    }
  }

  /** Every packet a round delivers (its GET answered within the allowed
      attempts) is one the inner loop reads without a panic. The bodies of
      rounds whose GET fails are never read. */
  predicate Shaped(cfg: Config, rounds: seq<Round>)
  {
    forall k :: 0 <= k < |rounds| ==> Delivers(cfg, rounds[k]) ==> Fits(cfg.iLength, rounds[k].body.data)
  }

  /** The round gets past the fetch, body-read, JSON and success checks. */
  predicate Delivers(cfg: Config, r: Round)
  {
    Succeeds(cfg.attempts, r.get) && r.body.Packet?
  }

  /** The items of a packet the inner loop looks at. */
  function Taken(cfg: Config, r: Round): (items: seq<Option<seq<Byte>>>)
    requires r.body.Packet?
  {
    Window(cfg, r.body.data)
  }

  /** Why the outer loop ended. `OutOfRounds` is the model's own case: the
      oracle has no further round, which the loop treats like a failed GET. */
  datatype End = Enough | OutOfRounds | GetFailed | BodyFailed | JsonFailed | NotSuccess {
    predicate IsFailure() { !Enough? && !OutOfRounds? }
  }

  /** State of the outer loop when it ends: the buffer, the counter `i`, the
      number of rounds consumed since the call began and why it ended. */
  datatype Progress = Progress(out: seq<Byte>, i: int, used: nat, end: End)

  /** The end a round that does not deliver a packet gives the loop: the
      first of the GET, body-read, JSON and success checks that fails. */
  function Verdict(cfg: Config, r: Round): (e: End)
    requires !Delivers(cfg, r)
    ensures e.IsFailure()
    ensures e == GetFailed <==> !Succeeds(cfg.attempts, r.get)
    ensures e == BodyFailed <==> Succeeds(cfg.attempts, r.get) && r.body.Unreadable?
    ensures e == JsonFailed <==> Succeeds(cfg.attempts, r.get) && r.body.NotJson?
    ensures e == NotSuccess <==> Succeeds(cfg.attempts, r.get) && r.body.Unsuccessful?
  {
    if !Succeeds(cfg.attempts, r.get) then GetFailed
    else match r.body
      case Unreadable(_) => BodyFailed
      case NotJson(_) => JsonFailed
      case Unsuccessful => NotSuccess
  }

  /** The outer loop of `Get`, from buffer `out` and counter `i`, when `k`
      rounds have been consumed. */
  function Gather(cfg: Config, size: int, rounds: seq<Round>, k: nat, out: seq<Byte>, i: int): (p: Progress)
    requires k <= |rounds|
    ensures k <= p.used <= |rounds|
    decreases |rounds| - k
  {
    if i >= size then Progress(out, i, k, Enough)
    else if k == |rounds| then Progress(out, i, k, OutOfRounds)
    else if !Delivers(cfg, rounds[k]) then Progress(out, i, k + 1, Verdict(cfg, rounds[k]))
    else
      var items := Taken(cfg, rounds[k]);
      Gather(cfg, size, rounds, k + 1, out + PacketBytes(items), i + Advance(cfg.iSize, PacketCount(items)))
  }

  /** The bytes a round adds to the buffer when the loop gets past it. */
  function Harvest(cfg: Config, r: Round): (bytes: seq<Byte>)
  {
    if Delivers(cfg, r) then PacketBytes(Taken(cfg, r)) else []
  }

  /** The in-order concatenation of what rounds `from` up to `to` add. */
  function Stream(cfg: Config, rounds: seq<Round>, from: nat, to: nat): (r: seq<Byte>)
    requires from <= to <= |rounds|
    decreases |rounds| - from
  {
    if from == to then [] else Harvest(cfg, rounds[from]) + Stream(cfg, rounds, from + 1, to)
  }

  /** The number of items rounds `from` up to `to` add, each of which
      advances the counter by ISize. */
  function Tally(cfg: Config, rounds: seq<Round>, from: nat, to: nat): (r: nat)
    requires from <= to <= |rounds|
    decreases |rounds| - from
  {
    if from == to then 0
    else (if Delivers(cfg, rounds[from]) then PacketCount(Taken(cfg, rounds[from])) else 0) + Tally(cfg, rounds, from + 1, to)
  }

  function Zeros(n: nat): (z: seq<Byte>)
    ensures |z| == n && forall k :: 0 <= k < n ==> z[k] == 0
  {
    seq(n, _ => 0)
  }

  /** `crypto/rand.Read(buf)`: the generator's bytes replace the front of
      the buffer; whatever it does not reach keeps its old value. */
  function RandRead(buf: seq<Byte>, gen: Generator): (r: seq<Byte>)
    ensures |r| == |buf|
    ensures forall k :: 0 <= k < |r| ==> r[k] == (if k < |gen.bytes| then gen.bytes[k] else buf[k])
  {
    if |gen.bytes| >= |buf| then gen.bytes[..|buf|] else gen.bytes + buf[|gen.bytes|..]
  }

  /** What `Get` returns once the loop has left `out`: the buffer itself or
      its first `size` bytes when it is long enough, otherwise the buffer
      widened to `size` bytes (the spare capacity is zeroed) and refilled by
      the generator, tagged PseudoRandom, or nil and the generator's error. */
  function Conclude(size: int, out: seq<Byte>, gen: Generator): (o: Outcome)
    requires size >= 1
    ensures o.out.Some? ==> |o.out.value| == size
    ensures o.out.None? <==> |out| < size && gen.failure.Some?
    ensures |out| >= size ==> o == Outcome(Some(out[..size]), None)
    ensures |out| < size && gen.failure.Some? ==> o.err == gen.failure
    ensures |out| < size && gen.failure.None? ==> o.err == Some(PseudoRandom)
    ensures |out| < size && gen.failure.None? && |gen.bytes| >= size ==> o.out == Some(gen.bytes[..size])
    ensures |out| < size && gen.failure.None? ==>
              forall k :: 0 <= k < size ==>
                o.out.value[k] == (if k < |gen.bytes| then gen.bytes[k] else if k < |out| then out[k] else 0)
  {
    if |out| == size then assert out[..size] == out; Outcome(Some(out), None)
    else if |out| >= size then Outcome(Some(out[..size]), None)
    else
      var filled := RandRead(out + Zeros(size - |out|), gen);
      if gen.failure.Some? then Outcome(None, gen.failure)
      else Outcome(Some(filled), Some(PseudoRandom))
  }

  /** The result of `Get(size)` against the given environment. */
  function GetSpec(cfg: Config, size: int, env: Env): (o: Outcome)
    ensures size < 1 ==> o == Outcome(None, Some(InvalidSize))
    ensures size >= 1 && o.out.Some? ==> |o.out.value| == size
  {
    if size < 1 then Outcome(None, Some(InvalidSize))
    else Conclude(size, Gather(cfg, size, env.rounds, 0, [], 0).out, env.gen)
  }
}

=== FILE: acquisition_properties.dfy ===
/**
 * What one `Get` call promises, proved about its specification: what the
 * buffer holds when the loop ends, which round ends it, what the counter
 * counts, and the three kinds of result.
 */
module AcquisitionProperties {
  import opened QrandTypes
  import opened RetryPolicy
  import opened Acquisition

  /** The loop ends with `Enough` exactly when the counter has reached
      `size`; it runs out of rounds only after consuming all of them; a
      failure ends it only after consuming a round; and the buffer only
      grows: the starting buffer is a prefix of the one it leaves. */
  lemma {:induction false} GatherEnds(cfg: Config, size: int, rounds: seq<Round>, k: nat, out: seq<Byte>, i: int)
    requires k <= |rounds|
    ensures var p := Gather(cfg, size, rounds, k, out, i);
      && (p.end.Enough? <==> p.i >= size)
      && (p.end.OutOfRounds? ==> p.used == |rounds|)
      && (p.end.IsFailure() ==> p.used > k)
      && |out| <= |p.out| && p.out[..|out|] == out
    decreases |rounds| - k
  {
    if i < size && k < |rounds| && Delivers(cfg, rounds[k]) {
      var items := Taken(cfg, rounds[k]);
      var out', i' := out + PacketBytes(items), i + Advance(cfg.iSize, PacketCount(items));
      GatherEnds(cfg, size, rounds, k + 1, out', i');
      var q := Gather(cfg, size, rounds, k + 1, out', i');
      assert Gather(cfg, size, rounds, k, out, i) == q;
      assert q.out[..|out|] == out'[..|out|] == out;
    }
  }

  /** The buffer the loop leaves is the starting buffer followed by the
      in-order bytes of the rounds it consumed. */
  lemma {:induction false} GatherCollects(cfg: Config, size: int, rounds: seq<Round>, k: nat, out: seq<Byte>, i: int)
    requires k <= |rounds|
    ensures var p := Gather(cfg, size, rounds, k, out, i);
      p.out == out + Stream(cfg, rounds, k, p.used)
    decreases |rounds| - k
  {
    if i < size && k < |rounds| && Delivers(cfg, rounds[k]) {
      var items := Taken(cfg, rounds[k]);
      GatherCollects(cfg, size, rounds, k + 1, out + PacketBytes(items), i + Advance(cfg.iSize, PacketCount(items)));
    }
  }

  /** The counter's advance over two runs of items is the sum of the two. */
  lemma {:induction false} AdvanceAdds(step: int, a: nat, b: nat)
    ensures Advance(step, a + b) == Advance(step, a) + Advance(step, b)
    decreases b
  {
    if b > 0 {
      AdvanceAdds(step, a, b - 1);
    }
  }

  /** The counter the loop leaves has grown by ISize for every item the
      consumed rounds appended (`Advance`, ISize times the item count by
      `AdvanceIsProduct`), whatever that item's length. */
  lemma {:induction false} GatherCounts(cfg: Config, size: int, rounds: seq<Round>, k: nat, out: seq<Byte>, i: int)
    requires k <= |rounds|
    ensures var p := Gather(cfg, size, rounds, k, out, i);
      p.i == i + Advance(cfg.iSize, Tally(cfg, rounds, k, p.used))
    decreases |rounds| - k
  {
    var p := Gather(cfg, size, rounds, k, out, i);
    if i < size && k < |rounds| && Delivers(cfg, rounds[k]) {
      var items := Taken(cfg, rounds[k]);
      GatherCounts(cfg, size, rounds, k + 1, out + PacketBytes(items), i + Advance(cfg.iSize, PacketCount(items)));
      AdvanceAdds(cfg.iSize, PacketCount(items), Tally(cfg, rounds, k + 1, p.used));
    }
  }

  /** The loop consumes rounds up to and including the first one whose
      fetch, body read, JSON decode or success flag fails, and stops there;
      every earlier round delivered a packet. A failure ends the loop
      exactly when the last round consumed did not deliver. */
  lemma {:induction false} GatherStopsAtFirstFailure(cfg: Config, size: int, rounds: seq<Round>, k: nat, out: seq<Byte>, i: int)
    requires k <= |rounds|
    ensures var p := Gather(cfg, size, rounds, k, out, i);
      && (forall m :: k <= m < p.used - 1 ==> Delivers(cfg, rounds[m]))
      && (p.end.IsFailure() <==> p.used > k && !Delivers(cfg, rounds[p.used - 1]))
      && (p.end.IsFailure() ==> p.end == Verdict(cfg, rounds[p.used - 1]))
    decreases |rounds| - k
  {
    if i < size && k < |rounds| && Delivers(cfg, rounds[k]) {
      var items := Taken(cfg, rounds[k]);
      GatherStopsAtFirstFailure(cfg, size, rounds, k + 1, out + PacketBytes(items), i + Advance(cfg.iSize, PacketCount(items)));
    }
  }

  /** As written, a hex-decode failure does not end the loop: the items of
      the packet before the bad one stay in the buffer, the rest of the
      packet is skipped, and while the counter is still below `size` the
      next round is fetched. */
  lemma DecodeFailureFetchesAgain(cfg: Config, size: int, rounds: seq<Round>, k: nat, out: seq<Byte>, i: int)
    requires k + 1 < |rounds| && i < size
    requires Delivers(cfg, rounds[k])
    requires PacketCount(Taken(cfg, rounds[k])) < |Taken(cfg, rounds[k])|
    requires i + Advance(cfg.iSize, PacketCount(Taken(cfg, rounds[k]))) < size
    ensures var p := Gather(cfg, size, rounds, k, out, i);
      var kept := out + PacketBytes(Taken(cfg, rounds[k]));
      && p.used >= k + 2
      && |kept| <= |p.out| && p.out[..|kept|] == kept
  {
    var items := Taken(cfg, rounds[k]);
    GatherEnds(cfg, size, rounds, k + 1, out + PacketBytes(items), i + Advance(cfg.iSize, PacketCount(items)));
  }

  /** Every item of `items` decodes to at least `w` bytes: all of them are
      appended and they add at least `|items| * w` bytes. */
  lemma {:induction false} FullPacket(items: seq<Option<seq<Byte>>>, w: int)
    requires forall k :: 0 <= k < |items| ==> items[k].Some? && |items[k].value| >= w
    ensures PacketCount(items) == |items|
    ensures |PacketBytes(items)| >= |items| * w
  {
    if items != [] {
      FullPacket(items[1..], w);
      assert |items| * w == w + (|items| - 1) * w;
    }
  }

  /** The remote service answers and every item the loop looks at decodes
      to at least ISize bytes. */
  predicate Healthy(cfg: Config, r: Round)
  {
    && Delivers(cfg, r)
    && |r.body.data| >= cfg.iLength
    && forall k :: 0 <= k < cfg.iLength ==> r.body.data[k].Some? && |r.body.data[k].value| >= cfg.iSize
  }

  /** From a buffer at least as long as the counter, rounds that are all
      healthy and numerous enough carry the counter to `size`, and the
      buffer with it. */
  lemma {:induction false} HealthyGather(cfg: Config, size: int, rounds: seq<Round>, k: nat, out: seq<Byte>, i: int)
    requires k <= |rounds| && cfg.iSize >= 1
    requires forall m :: k <= m < |rounds| ==> Healthy(cfg, rounds[m])
    requires |out| >= i
    requires i + (|rounds| - k) * (cfg.iLength * cfg.iSize) >= size
    ensures var p := Gather(cfg, size, rounds, k, out, i); p.end == Enough && |p.out| >= size
    decreases |rounds| - k
  {
    if i < size {
      var items := Taken(cfg, rounds[k]);
      FullPacket(items, cfg.iSize);
      AdvanceIsProduct(cfg.iSize, PacketCount(items));
      var out', i' := out + PacketBytes(items), i + Advance(cfg.iSize, PacketCount(items));
      assert i' == i + cfg.iLength * cfg.iSize;
      assert (|rounds| - k) * (cfg.iLength * cfg.iSize) == cfg.iLength * cfg.iSize + (|rounds| - (k + 1)) * (cfg.iLength * cfg.iSize);
      HealthyGather(cfg, size, rounds, k + 1, out', i');
    }
  }

  /** When the loop leaves at least `size` bytes, `Get` returns the first
      `size` bytes of the in-order concatenation of what the consumed rounds
      decoded (excess dropped) and no error. */
  lemma EnoughBytesGivesStreamPrefix(cfg: Config, size: int, env: Env)
    requires size >= 1
    requires |Gather(cfg, size, env.rounds, 0, [], 0).out| >= size
    ensures var p := Gather(cfg, size, env.rounds, 0, [], 0);
      && |Stream(cfg, env.rounds, 0, p.used)| >= size
      && GetSpec(cfg, size, env) == Outcome(Some(Stream(cfg, env.rounds, 0, p.used)[..size]), None)
  {
    GatherCollects(cfg, size, env.rounds, 0, [], 0);
    var p := Gather(cfg, size, env.rounds, 0, [], 0);
    assert p.out == Stream(cfg, env.rounds, 0, p.used);
    assert GetSpec(cfg, size, env) == Conclude(size, p.out, env.gen);
  }

  /** A service that keeps answering with well-formed packets, for as many
      rounds as `size` needs, yields `size` true-random bytes and no error. */
  lemma HealthyServerGivesTrueRandom(cfg: Config, size: int, env: Env)
    requires size >= 1 && cfg.iSize >= 1
    requires forall k :: 0 <= k < |env.rounds| ==> Healthy(cfg, env.rounds[k])
    requires |env.rounds| * (cfg.iLength * cfg.iSize) >= size
    ensures var p := Gather(cfg, size, env.rounds, 0, [], 0);
      && |Stream(cfg, env.rounds, 0, p.used)| >= size
      && GetSpec(cfg, size, env) == Outcome(Some(Stream(cfg, env.rounds, 0, p.used)[..size]), None)
  {
    HealthyGather(cfg, size, env.rounds, 0, [], 0);
    EnoughBytesGivesStreamPrefix(cfg, size, env);
  }

  /** When the loop leaves fewer than `size` bytes, the generator refills
      the whole buffer: with a complete read no collected byte survives and
      the result is tagged PseudoRandom; a generator error gives nil and
      that error. */
  lemma FallbackDiscardsCollected(cfg: Config, size: int, env: Env)
    requires size >= 1
    requires |Gather(cfg, size, env.rounds, 0, [], 0).out| < size
    ensures env.gen.failure.Some? ==> GetSpec(cfg, size, env) == Outcome(None, env.gen.failure)
    ensures env.gen.failure.None? && |env.gen.bytes| >= size ==>
              GetSpec(cfg, size, env) == Outcome(Some(env.gen.bytes[..size]), Some(PseudoRandom))
  {
  }

  /** The three kinds of result of `Get(size)` for `size >= 1`: true-random
      bytes and no error exactly when the loop collected enough; otherwise
      `size` bytes tagged PseudoRandom, or nil and the generator's error. */
  lemma OutcomeKinds(cfg: Config, size: int, env: Env)
    requires size >= 1
    ensures var o := GetSpec(cfg, size, env);
      var enough := |Gather(cfg, size, env.rounds, 0, [], 0).out| >= size;
      && (o.err.None? <==> enough)
      && (!enough && env.gen.failure.None? ==> o.out.Some? && o.err == Some(PseudoRandom))
      && (!enough && env.gen.failure.Some? ==> o == Outcome(None, env.gen.failure))
  {
  }

  /** A first round whose GET fails on every attempt ends the loop at once:
      nothing is collected and the whole result comes from the generator. */
  lemma UnreachableServerFallsBack(cfg: Config, size: int, env: Env)
    requires size >= 1 && |env.rounds| >= 1
    requires forall k :: 0 <= k < Tries(cfg.attempts) ==> env.rounds[0].get(k).Refused?
    requires env.gen.failure.None? && |env.gen.bytes| >= size
    ensures Gather(cfg, size, env.rounds, 0, [], 0) == Progress([], 0, 1, GetFailed)
    ensures GetSpec(cfg, size, env) == Outcome(Some(env.gen.bytes[..size]), Some(PseudoRandom))
  {
  }

  /** Items that all decode to nothing: none of them adds a byte, yet each
      advances the counter. */
  lemma {:induction false} EmptyItems(items: seq<Option<seq<Byte>>>)
    requires forall k :: 0 <= k < |items| ==> items[k] == Some([])
    ensures PacketBytes(items) == [] && PacketCount(items) == |items|
  {
    if items != [] {
      EmptyItems(items[1..]);
    }
  }

  /** With the package defaults, one answered packet of ten empty strings
      moves the counter to 20, which ends the loop for any `size` up to 20
      with nothing collected: `Get` falls back although no step failed. */
  lemma EmptyItemsForceFallback(size: int, env: Env)
    requires 1 <= size <= 20 && |env.rounds| >= 1
    requires env.rounds[0].get(0).Answered?
    requires env.rounds[0].body == Packet(seq(10, _ => Some([])))
    ensures Gather(Defaults, size, env.rounds, 0, [], 0) == Progress([], 20, 1, Enough)
    ensures GetSpec(Defaults, size, env).err == if env.gen.failure.Some? then env.gen.failure else Some(PseudoRandom)
  {
    assert Succeeds(Defaults.attempts, env.rounds[0].get);
    var items := Taken(Defaults, env.rounds[0]);
    EmptyItems(items);
  }
}

=== FILE: qrand.dfy ===
/**
 * The package's entry points: `Get`, which builds the output buffer batch
 * by batch and then truncates it or falls back to the local generator, and
 * `Reader.Read`, which copies `Get`'s bytes into a caller's buffer.
 */
module Qrand {
  import opened QrandTypes
  import opened RetryPolicy
  import opened Acquisition

  /** The inner loop of `Get` over the first ILength items of one packet:
      append each decoded item and advance the counter by ISize, up to the
      first item that fails to decode. A list shorter than ILength is read
      only up to its first failing entry. */
  method Unpack(cfg: Config, data: seq<Option<seq<Byte>>>, buf0: seq<Byte>, i0: int)
    returns (buf: seq<Byte>, i: int)
    requires Fits(cfg.iLength, data)
    ensures buf == buf0 + PacketBytes(Window(cfg, data))
    ensures i == i0 + Advance(cfg.iSize, PacketCount(Window(cfg, data)))
  {
    ghost var items := Window(cfg, data);
    FitsMeans(cfg.iLength, data);
    buf, i := buf0, i0;
    var j := 0;
    while j < cfg.iLength
      invariant 0 <= j <= cfg.iLength && j <= PacketCount(items)
      invariant buf0 + PacketBytes(items) == buf + PacketBytes(items[j..])
      invariant i0 + Advance(cfg.iSize, PacketCount(items)) == i + Advance(cfg.iSize, PacketCount(items[j..]))
    {
      assert j < |items|;
      var decoded := data[j];
      assert decoded == items[j];
      if decoded.None? {
        assert items[j..][0] == decoded;
        break;
      }
      PacketStep(items, j);
      assert buf + PacketBytes(items[j..]) == (buf + decoded.value) + PacketBytes(items[j + 1..]);
      buf := buf + decoded.value;
      i := i + cfg.iSize;
      j := j + 1;
    }
    assert PacketBytes(items[j..]) == [] && PacketCount(items[j..]) == 0;
  }

  /** One iteration of the outer loop of `Get`: the GET wrapped in `Retry`,
      then the body, JSON and success checks, then the inner loop. `stop`
      says that one of the checks failed and the loop breaks. */
  method Fetch(cfg: Config, round: Round, buf0: seq<Byte>, i0: int)
    returns (buf: seq<Byte>, i: int, stop: bool)
    requires Delivers(cfg, round) ==> Fits(cfg.iLength, round.body.data)
    ensures stop <==> !Delivers(cfg, round)
    ensures stop ==> buf == buf0 && i == i0
    ensures !stop ==> buf == buf0 + PacketBytes(Taken(cfg, round))
    ensures !stop ==> i == i0 + Advance(cfg.iSize, PacketCount(Taken(cfg, round)))
  {
    buf, i, stop := buf0, i0, true;
    var fetchErr;
    ghost var calls, sleeps;
    fetchErr, calls, sleeps := Retry(cfg.attempts, round.get);
    if fetchErr.Some? {
      return;
    }
    match round.body {
      case Unreadable(_) => return;
      case NotJson(_) => return;
      case Unsuccessful => return;
      case Packet(data) =>
        buf, i := Unpack(cfg, data, buf, i);
        stop := false;
    }
  }

  /** The outer loop of `Get`: fetch rounds until the counter reaches
      `size` or a step fails. `fetches` counts the rounds played, each one a
      call of `Retry` around `http.Get`. */
  method Accumulate(cfg: Config, size: int, rounds: seq<Round>) returns (buf: seq<Byte>, ghost fetches: nat)
    requires Shaped(cfg, rounds)
    ensures buf == Gather(cfg, size, rounds, 0, [], 0).out
    ensures fetches == Gather(cfg, size, rounds, 0, [], 0).used
  {
    ghost var whole := Gather(cfg, size, rounds, 0, [], 0);
    buf := [];
    var i := 0;
    var k := 0;  // position of the next round in the oracle
    while i < size
      invariant 0 <= k <= |rounds|
      invariant Gather(cfg, size, rounds, k, buf, i) == whole
      decreases |rounds| - k
    {
      if k == |rounds| {
        // No further round: the loop ends as after a failed GET.
        break;
      }
      var stop;
      buf, i, stop := Fetch(cfg, rounds[k], buf, i);
      k := k + 1;
      if stop {
        break;
      }
    }
    fetches := k;
  }

  /** `Get(size)` against the environment `env`. `fetches` counts the
      rounds played and `fellBack` says whether the local generator was
      called. */
  method Get(cfg: Config, size: int, env: Env)
    returns (out: Option<seq<Byte>>, err: Option<Error>, ghost fetches: nat, ghost fellBack: bool)
    requires Shaped(cfg, env.rounds)
    ensures Outcome(out, err) == GetSpec(cfg, size, env)
    ensures size < 1 ==> fetches == 0 && !fellBack
    ensures size >= 1 ==> fetches == Gather(cfg, size, env.rounds, 0, [], 0).used
    ensures size >= 1 ==> (fellBack <==> |Gather(cfg, size, env.rounds, 0, [], 0).out| < size)
  {
    fetches, fellBack := 0, false;
    if size < 1 {
      out, err := None, Some(InvalidSize);
      return;
    }
    var buf;
    buf, fetches := Accumulate(cfg, size, env.rounds);
    if |buf| == size {
      out, err := Some(buf), None;
      return;
    }
    if |buf| >= size {
      out, err := Some(buf[..size]), None;
      return;
    }
    fellBack := true;
    var widened := buf + Zeros(size - |buf|);
    var filled := RandRead(widened, env.gen);
    if env.gen.failure.Some? {
      out, err := None, env.gen.failure;
      return;
    }
    out, err := Some(filled), Some(PseudoRandom);
  }

  /** `Reader` has no state of its own: every `Read` is one `Get`. */
  class Reader {
    method Read(p: array<Byte>, cfg: Config, env: Env) returns (n: int, err: Option<Error>, ghost fetches: nat)
      requires Shaped(cfg, env.rounds)
      modifies p
      ensures n == 0 || n == p.Length
      ensures p.Length == 0 ==> n == 0 && err == None && fetches == 0
      ensures p.Length > 0 ==> err == GetSpec(cfg, p.Length, env).err
      ensures p.Length > 0 ==> fetches == Gather(cfg, p.Length, env.rounds, 0, [], 0).used
      ensures p.Length > 0 && GetSpec(cfg, p.Length, env).out.None? ==> n == 0 && p[..] == old(p[..])
      ensures p.Length > 0 && GetSpec(cfg, p.Length, env).out.Some? ==>
                n == p.Length && p[..] == GetSpec(cfg, p.Length, env).out.value
    {
      var l := p.Length;
      if l == 0 {
        return 0, None, 0;
      }
      var x;
      ghost var fellBack;
      x, err, fetches, fellBack := Get(cfg, l, env);
      var bytes := if x.Some? then x.value else [];
      for i := 0 to |bytes|
        invariant p[..i] == bytes[..i]
        invariant p[i..] == old(p[i..])
      {
        p[i] := bytes[i];
      }
      n := |bytes|;
    }
  }
}

=== FILE: qrand_types.dfy ===
/**
 * Values shared by the acquisition pipeline: bytes, the error tags it
 * returns, the package-level configuration and the oracles that stand in
 * for the network, the JSON/hex decoders and the local entropy source.
 */
module QrandTypes {

  type Byte = x: int | 0 <= x < 256

  datatype Option<+T> = None | Some(value: T)

  /** The errors `Get` and `retry` return. Errors produced by libraries that
      are outside the model (net/http, io, encoding/json, crypto/rand) are
      opaque values the pipeline only passes on. */
  datatype Error =
    | InvalidSize                          // Get was asked for fewer than one byte
    | Retried(attempts: int, last: Error)  // retry gave up: the attempt count and the last error
    | PseudoRandom                         // PseudoRandomError: the bytes came from the local generator
    | External(origin: string)             // an error reported by a library call

  /** The package-level variables ILength, ISize and Attempts, fixed for one
      call. ILength is a count of items, so it is a natural number here. */
  datatype Config = Config(iLength: nat, iSize: int, attempts: int)

  /** The values the package starts with. */
  const Defaults := Config(10, 2, 2)

  /** Outcome of one `http.Get` of the endpoint. */
  datatype Attempt = Answered | Refused(cause: Error)

  /** What reading and unmarshalling the body of the answered request gives:
      a read error, a JSON error, `success == false`, or the `data` list with
      each entry already run through `hex.DecodeString` (None: not valid hex). */
  datatype Body =
    | Unreadable(cause: Error)
    | NotJson(cause: Error)
    | Unsuccessful
    | Packet(data: seq<Option<seq<Byte>>>)

  /** One iteration of the outer loop as the outside world answers it:
      `get(k)` is the outcome of the k-th `http.Get` retry makes in this
      iteration, `body` what the answered response turns out to hold. */
  datatype Round = Round(get: nat -> Attempt, body: Body)

  /** `crypto/rand.Read`: the bytes it writes over the front of the buffer
      it is given, and the error it returns. */
  datatype Generator = Generator(bytes: seq<Byte>, failure: Option<Error>)

  /** Everything outside the pipeline, for one call of `Get`: the rounds the
      remote service will play, in order, and the local generator. */
  datatype Env = Env(rounds: seq<Round>, gen: Generator)

  /** The pair `Get` returns; None stands for Go's nil. */
  datatype Outcome = Outcome(out: Option<seq<Byte>>, err: Option<Error>)
}

=== FILE: retry.dfy ===
/**
 * The `retry` helper: call a callback until it succeeds or the attempts
 * are used up, sleeping between calls.
 */
module RetryPolicy {
  import opened QrandTypes

  /** How many calls `retry` allows: its loop runs the body at least once,
      so an attempt count below 1 behaves like 1. */
  function Tries(attempts: int): (n: nat)
    ensures n >= 1 && n >= attempts
    ensures attempts >= 1 ==> n == attempts
    ensures attempts < 1 ==> n == 1
  {
    if attempts < 1 then 1 else attempts
  }

  /** Some call within the allowed number of tries is answered. */
  predicate Succeeds(attempts: int, callback: nat -> Attempt)
  {
    exists k :: 0 <= k < Tries(attempts) && callback(k).Answered?
  }

  /** `callback(k)` is the outcome of the k-th call. `calls` and `sleeps`
      count the calls made and the `time.Sleep`s between them. */
  method Retry(attempts: int, callback: nat -> Attempt)
    returns (err: Option<Error>, ghost calls: nat, ghost sleeps: nat)
    ensures 1 <= calls <= Tries(attempts)
    ensures forall k :: 0 <= k < calls - 1 ==> callback(k).Refused?
    ensures err.None? <==> callback(calls - 1).Answered?
    ensures err.None? <==> Succeeds(attempts, callback)
    ensures err.Some? ==> calls == Tries(attempts)
    ensures err.Some? ==> err == Some(Retried(attempts, callback(calls - 1).cause))
    ensures sleeps == calls - 1
  {
    calls, sleeps := 0, 0;
    var i := 0;
    while true
      invariant 0 <= i < Tries(attempts)
      invariant calls == i && sleeps == i
      invariant forall k :: 0 <= k < i ==> callback(k).Refused?
      decreases Tries(attempts) - i
    {
      var outcome := callback(i);
      calls := calls + 1;
      if outcome.Answered? {
        err := None;
        return;
      }
      if i >= attempts - 1 {
        break;
      }
      sleeps := sleeps + 1;
      i := i + 1;
    }
    err := Some(Retried(attempts, callback(i).cause));
  }
}
